=== FILE: README.md ===
# isorender-node, modelled in Dafny

isorender-node is a small request/response protocol over a local socket,
used to hand rendering work to a separate Node process. A `Client(path,
timeout)` sends `{ id, conn, data }` requests; a `Server(renderFunc,
handleError)` renders each one with the user's render function and answers
with `{ id, rendered }` or `{ id, error }`. Both directions use the same
framing: a 4-byte unsigned big-endian length, then that many bytes of UTF-8
JSON. Each end decodes with a `FrameBuffer`, an incremental decoder fed one
socket chunk at a time. The client routes every response to the callback
registered under its id. A per-request timer reports a `TimeoutError` if no
response came first.

The model, module by module:

- `Options`, `Values`: an option type, and JavaScript values as far as the
  protocol uses them (truthiness, `toString`).
- `Wire` (`wire.dfy`): the 32-bit big-endian prefix, frame encoding, and
  `Parse`, a whole-stream reference decoder. Round trips, reassembly and
  cut-insensitivity are proved about it.
- `Decoding` (`decoding.dfy`): the `FrameBuffer` closure as a class with
  `buffer` and `frameLength` fields. `Feed` and its `while` loop `Drain` are
  proved against the functions `AfterFeed` and `AfterDrain`. Those functions
  are proved to deliver exactly what `Parse` finds, however the stream is
  chunked.
- `Errors` (`errors.dfy`): `makeError` and `TimeoutError`.
- `Rpc` (`rpc.dfy`): requests, responses, and the JSON codec as an abstract
  `Codec`.
- `ClientSide` (`client.dfy`): the `Client` closure as a class. Its invariant
  has two parts:
  - Every callback runs at most once, and only for its own request.
  - The bytes written or queued are exactly the frames of the sent requests,
    in order.
- `ServerSide` (`server.dfy`): how a request is answered, and each accepted
  connection as a class with its own frame buffer.
- `EndToEnd` (`endtoend.dfy`): client and server together. Requests are cut
  into arbitrary chunks on the way there, and replies on the way back. Each
  caller gets what JSON makes of the server's answer to what JSON made of
  its own request.

Callbacks and the `onFrame` calls scheduled with `process.nextTick` are
modelled as logs: `delivered` on the client, `FrameBuffer.delivered` on the
frame buffer. Each log records the calls in the order they will run. A
socket is reduced to the sequence of bytes written to it.

A length prefix of 0 would naturally mean a frame with an empty payload,
delivered like any other without holding up the next frame. The code does
not do that, and the model follows the code. It tests `frameLength` for
truthiness, so a prefix of 0 counts as "no length". From any state and with
any chunk, no call delivers an empty payload, so the zero-length frame is
never delivered (`Decoding.FeedNeverDeliversEmpty`). The next prefix is only
read when another chunk arrives, and the frames behind it wait until then
(`Decoding.ZeroLengthFrameStalls`). None of this arises between the two
ends modelled here, because a JSON payload is never empty. The properties
about chunking therefore assume positive prefixes
(`Wire.PositiveLengths`).

## Model

| member | source | states |
|---|---|---|
| Wire.DecodeBE32 | src/FrameBuffer.js:15 | `readUInt32BE` reads four bytes as a length below 2^32 |
| Wire.EncodeBE32 | src/Client.js:55 | `writeUInt32BE` writes a length below 2^32 as exactly four bytes |
| Wire.DecodeEncodeBE32 | src/FrameBuffer.js:15 | reading back a written 32-bit big-endian length gives the length |
| Wire.EncodeDecodeBE32 | src/FrameBuffer.js:14-16 | writing back the length read from four bytes gives those four bytes |
| Wire.EncodeFrame | src/Client.js:52-63 | a frame is 4 + N bytes; its prefix reads as N and the payload follows unchanged |
| Wire.EncodeFramesAppend | src/Client.js:58-59 | the frames of two payload lists concatenate to the frames of the joined list, as the queue does |
| Wire.ParseReassembles | src/FrameBuffer.js:19-31 | the reference decoder loses and invents nothing: the parsed payloads' frames plus the left-over bytes are the input |
| Wire.ParseRestIncomplete | src/FrameBuffer.js:19 | the left-over bytes never hold a whole frame |
| Wire.ParseAppend | src/FrameBuffer.js:7-32 | parsing s + t is parsing s, then parsing its left-over bytes with t |
| Wire.ParseEncodeFrames | src/FrameBuffer.js:14-31 | encoded frames parse back to exactly their payloads, with nothing left over |
| Wire.FramableSplit | src/Server.js:19 | if every payload of a joined list fits a 32-bit prefix, so does every payload of each part |
| Wire.EncodeFramesPositive | src/FrameBuffer.js:19 | frames of non-empty payloads carry only positive prefixes, which the truthiness guard accepts |
| Decoding.AfterDrain | src/FrameBuffer.js:19-31 | the loop ends with its guard false: no positive length with enough bytes buffered; with no length, fewer than 4 bytes remain or nothing was read |
| Decoding.AfterFeed | src/FrameBuffer.js:7-32 | after a call the decoder is at rest: a positive pending length exceeds the bytes buffered; with no length, fewer than 4 bytes are buffered |
| Decoding.DrainConservesBytes | src/FrameBuffer.js:19-31 | the loop's input is exactly the bytes it sliced off followed by what stays buffered |
| Decoding.FeedConservesBytes | src/FrameBuffer.js:7-32 | old buffer plus chunk is exactly the bytes sliced off followed by the new buffer |
| Decoding.AfterChunks | src/FrameBuffer.js:7-32 | feeding chunks one call at a time keeps the state well formed |
| Decoding.AtRestParsesNothing | src/FrameBuffer.js:19 | a decoder at rest holds no complete frame |
| Decoding.DrainMatchesParse | src/FrameBuffer.js:19-31 | with positive prefixes, the loop delivers exactly what the reference decoder parses, and keeps exactly its left-over bytes |
| Decoding.FeedMatchesParse | src/FrameBuffer.js:7-32 | with positive prefixes, one call delivers exactly the payloads the reference decoder finds in the pending bytes plus the chunk |
| Decoding.ChunkingInvariance | src/FrameBuffer.js:7-32 | however the stream is cut into chunks, the payloads delivered are those of the whole stream, in order |
| Decoding.ChunkedFramesDelivered | src/FrameBuffer.js:7-32 | frames of non-empty payloads, cut into any chunks, deliver exactly those payloads and leave a fresh decoder |
| Decoding.EmptyChunkAtRest | src/FrameBuffer.js:8-12 | an empty chunk delivers nothing and changes nothing |
| Decoding.DrainNeverDeliversEmpty | src/FrameBuffer.js:19-23 | the loop never schedules an empty payload, whatever the buffer and pending length |
| Decoding.FeedNeverDeliversEmpty | src/FrameBuffer.js:14-19 | from any state and with any chunk, a call never delivers an empty payload, so a zero-length frame is never delivered |
| Decoding.ZeroLengthFrameStalls | src/FrameBuffer.js:14-19 | a zero-length frame followed by a frame, fed in one chunk, delivers nothing and holds up the frame behind it until the next call, which delivers just that frame |
| Decoding.FeedKeepsParse | src/FrameBuffer.js:7-32 | every call preserves agreement with the reference decoder on all bytes fed so far |
| Decoding.DeliveredReassembles | src/FrameBuffer.js:7-32 | with positive prefixes, the bytes fed so far are exactly the frames of the payloads delivered followed by the bytes still pending |
| Decoding.FrameBuffer.constructor | src/FrameBuffer.js:3-5 | a new frame buffer starts empty, with no length and nothing delivered |
| Decoding.FrameBuffer.Feed | src/FrameBuffer.js:7-32 | one call moves the state as `AfterFeed` says and schedules its payloads in order, keeping conservation and agreement with the reference decoder |
| Decoding.FrameBuffer.SliceFrame | src/FrameBuffer.js:20-30 | one pass of the loop body schedules exactly the first `frameLength` buffered bytes, then reads the next prefix from the rest if four bytes remain and forgets the length otherwise; it shrinks the buffer and keeps the state on the path `AfterDrain` describes |
| Decoding.FrameBuffer.Drain | src/FrameBuffer.js:19-31 | the loop moves the state as `AfterDrain` says and schedules its payloads in order |
| Errors.Construct | src/errors.js:8-19 | a constructed value is an error object carrying its kind's name, whatever the arguments |
| Errors.FixedMessageSelection | src/errors.js:9-11 | with a fixed default, a truthy first argument is the message; otherwise the default is |
| Errors.TemplateMessage | src/errors.js:9-10 | with a template, the message is the template applied to the arguments |
| Errors.KindsDistinguishedByName | src/errors.js:3-6 | two constructed errors have the same name exactly when their kinds do, whatever the messages |
| Errors.TimeoutError | src/errors.js:22 | a TimeoutError is recognised by its name |
| Errors.TimeoutErrorConstructed | src/errors.js:22 | TimeoutError(id) is makeError's constructor for that kind, message "Timeout on request <id>" |
| Errors.TimeoutErrorInjective | src/errors.js:22 | timeout errors for different ids differ |
| ClientSide.OnResponse | src/Client.js:20-25 | a response stops its id pending; if the id was pending, its callback gets exactly that response, appended once; otherwise nothing is delivered |
| ClientSide.OnTimeout | src/Client.js:38-45 | a firing timer stops the id pending; if it was pending, its callback gets exactly that id's TimeoutError; otherwise nothing is delivered |
| ClientSide.RegisterKeepsExactlyOnce | src/Client.js:56 | registering a never-used id keeps the exactly-once bookkeeping |
| ClientSide.ResponseKeepsExactlyOnce | src/Client.js:17-26 | handling any response, even an unknown or repeated one, keeps the exactly-once bookkeeping |
| ClientSide.TimeoutKeepsExactlyOnce | src/Client.js:37-46 | a timer firing keeps the exactly-once bookkeeping |
| ClientSide.TimeoutSettles | src/Client.js:37-46 | once its timer has fired, a request is no longer pending and has had exactly one outcome |
| ClientSide.AtMostOneOutcome | src/Client.js:17-46 | whichever of response and timeout comes second does nothing, and a repeated response does nothing |
| ClientSide.CorrelationById | src/Client.js:17-26 | responses to pending requests, in any order, each go to the callback registered under their own id; exactly those ids stop pending |
| ClientSide.TransmittedSnoc | src/Client.js:58-64 | sending one more request appends exactly its frame to the bytes transmitted |
| ClientSide.Client.constructor | src/Client.js:8-15 | a new client has no requests, is not ready, has no queue, has written nothing, and has a fresh frame buffer that has been fed and has delivered nothing |
| ClientSide.Client.Send | src/Client.js:48-69 | registers the callback under the id and appends the request's frame to the socket when ready, to the queue otherwise, keeping the invariant |
| ClientSide.Client.Register | src/Client.js:56 | `requests.set` adds exactly the new id and keeps the exactly-once bookkeeping |
| ClientSide.Client.Transmit | src/Client.js:58-64 | the three-way branch appends the frame to the written bytes plus the queue, to the socket only when ready |
| ClientSide.Client.OnConnect | src/Client.js:28-35 | flushes the queue to the socket, leaves no queue and sets ready |
| ClientSide.Client.OnFrame | src/Client.js:17-26 | routes the parsed response as `OnResponse` says, keeping the invariant |
| ClientSide.Client.FireTimeout | src/Client.js:37-46 | reports a TimeoutError to a still-pending request as `OnTimeout` says, keeping the invariant |
| ClientSide.Client.OnData | src/Client.js:11-15 | a data event appends the chunk to the bytes fed to the frame buffer and routes every response it completes, in order |
| ClientSide.Client.RunScheduled | src/FrameBuffer.js:23 | the scheduled `onFrame` calls run in order, each routing its response |
| Values.FalsyValues | src/Server.js:28 | a value is falsy exactly when it is `undefined`, `null`, `false`, `0` or the empty string |
| Values.ShowText | src/errors.js:22 | a string's `toString` is the string itself |
| ServerSide.Render | src/Server.js:53-63 | a two-parameter render function that returns reports no error and its return value; one that throws reports the exception and no rendering; a callback-style one reports what it calls back with |
| ServerSide.Complete | src/Server.js:27-33 | the response built by `error` or `response` (src/Server.js:45-51) carries the request id; it is an error exactly when `err` is truthy, holding `handleError(err)`, else it holds `rendered` |
| ServerSide.Answer | src/Server.js:23-34 | every request's answer carries that request's id |
| ServerSide.SyncReturnRenders | src/Server.js:55-56 | a two-parameter render function's return value is the rendered answer |
| ServerSide.SyncThrowReports | src/Server.js:54-61 | a truthy exception is reported through `handleError`; a falsy one answers with `rendered` undefined |
| ServerSide.AsyncReportDecides | src/Server.js:59 | a callback-style render function's `(err, rendered)` alone decides the answer |
| ServerSide.SyncAsyncAgree | src/Server.js:53-63 | a synchronous render function and its callback-style counterpart give the same answer |
| ServerSide.DefaultErrorIsMessage | src/Server.js:6 | with the default handler, a non-empty string error comes back as itself |
| ServerSide.DefaultErrorObject | src/Server.js:6 | with the default handler, an error object with a name and a message comes back as "name: message" |
| ServerSide.Respond | src/Server.js:14-21 | a response is framed exactly as requests are, and the frame parses back to exactly the serialised response |
| ServerSide.ReplyPayloadsAt | src/Server.js:23-34 | the i-th reply payload is the serialised answer to the parsed i-th request payload |
| ServerSide.ReplyPayloadsAppend | src/Server.js:12 | the replies to two runs of requests, one after the other, are the replies to the first followed by those to the second |
| ServerSide.ReplyStep | src/Server.js:19-20 | answering one more request appends exactly that reply's frame to the replies written so far |
| ServerSide.Connection.constructor | src/Server.js:9-12 | a new connection has a fresh frame buffer and has written nothing |
| ServerSide.Connection.OnFrame | src/Server.js:23-34 | exactly one frame is appended to the socket: that of the serialised answer to the parsed request |
| ServerSide.Connection.RunScheduled | src/FrameBuffer.js:23 | the scheduled `onFrame` calls write one reply frame each, in order |
| ServerSide.Connection.OnData | src/Server.js:12 | a data event appends the chunk to the bytes fed to the frame buffer and answers exactly the requests the chunk completes, in order, keeping one reply per delivered request |
| ServerSide.TwoConnections | src/Server.js:9-12 | connections are independent: interleaved chunks on another connection do not change what one connection answers |
| EndToEnd.RequestsAnswered | src/Client.js:17-69 | requests framed by `send` and arbitrarily chunked both ways reach the server intact; each callback gets what the client parses back of the server's answer to what the server parsed of its own request, and none stays pending |
| EndToEnd.RepliesAreAnswers | src/Server.js:23-34 | the server's replies parse back, in order, to the answers to the requests as the server parsed them, each under its request's id |
| EndToEnd.PlainDataAnswered | src/Server.js:15 | when serialising loses nothing of a request and of its answer, the callback gets exactly the server's answer |

## Left out

- Sockets: `net.connect`, `net.createServer`, `listen`, `close` and `client.end` (src/Client.js:71-73, src/Server.js:37-43) are not modelled. A socket is reduced to the bytes written to it, and `connect` to the `OnConnect` event.
- `process.nextTick`: deferred calls are logged in order and run in that order. Other events that could run between scheduling and running are not interleaved.
- `uuid()`: the id is a parameter of `Send`. The model requires it to differ from every id used before, which is what a v4 uuid is relied on for.
- `JSON.stringify`, `JSON.parse` and UTF-8: these are an abstract `Codec`. Only two facts about it are relied on: an id survives serialising and parsing (`KeepsIds`), and a serialised object is never empty (`NonEmptyPayloads`). Parsing does not in general undo serialising: `JSON.stringify` writes an error object as `{}` and drops `undefined` members. So what a callback receives is stated as `JSON.parse(JSON.stringify(x))` of the answer (`ResponseReceived`); it equals the answer only for data that JSON represents (`EndToEnd.PlainDataAnswered`). Malformed JSON, which would throw inside `onFrame`, is not modelled.
- `renderFunc.length`: arity is not introspected. The two calling conventions are the two cases of `Handler`.
- ServerSide.Answer: a callback-style render function is modelled as reporting exactly once, synchronously in model order. One that never calls back, calls back twice, throws later or answers out of order is not modelled. Replies are written in request order.
- Timers: the timeout duration and the clock are not modelled. The timer firing is the `FireTimeout` event, which may come at any point.
- `if (cb)`: callbacks are opaque handles and always truthy. A falsy callback passed to `send` is not modelled.
- ClientSide.Client.Send: `writeUInt32BE` throws a RangeError for a payload of 2^32 bytes or more. The model makes the 32-bit bound on the request a precondition instead of modelling the exception.
- ServerSide.Connection.OnFrame: the same RangeError in `respond` is not modelled either; the reply being written must be under 2^32 bytes. `RunScheduled`, `OnData` and `TwoConnections` require this of every reply they write, and `EndToEnd.RequestsAnswered` of every reply sent back.
- ServerSide.Connection.RunScheduled: the scheduled calls are run by recursion over the log rather than by a loop.
- Errors.Construct: the prototype chain, `Object.create` and `Error.call` (stack capture) are reduced to an error value's name and message.
- Numbers are integers in `Values`. Floating point and NaN are not modelled.
- `e.toString()` on `null` or `undefined` is not modelled. `handleError` is only called with a truthy error.
- The initial `null` buffer is modelled as the empty byte sequence. `Buffer.concat` with an empty buffer gives the same bytes.

=== FILE: client.dfy ===
/** The client end: `send` registers a callback under a fresh id and writes
    (or queues, before the connection is up) one frame per request; every
    decoded response frame is routed to the callback registered under its
    id; a timer per request reports a TimeoutError if no response came first.
    Each callback runs at most once. */
module ClientSide {
  import opened Options
  import opened Values
  import opened Wire
  import opened Decoding
  import opened Rpc
  import Errors

  /** A callback passed to `send`, kept as an opaque handle. */
  type Callback = nat

  /** What a callback is called with: `(null, obj)` or `(TimeoutError(id))`. */
  datatype Outcome =
    | Responded(response: Response)
    | Failed(error: Value)

  /** One scheduled callback invocation. */
  datatype Delivery = Delivery(id: Id, callback: Callback, outcome: Outcome)

  /** The `requests` map and the log of callback invocations, in the order
      they were scheduled. */
  datatype Table = Table(requests: map<Id, Callback>, delivered: seq<Delivery>)

  /** `onFrame` once the payload has been parsed: a response whose id is
      pending takes that entry out and schedules its callback; any other
      response (late, unknown, duplicate) is dropped. */
  function OnResponse(t: Table, obj: Response): (r: Table)
    ensures r.requests == t.requests - {obj.id}
    ensures obj.id in t.requests ==> r.delivered == t.delivered + [Delivery(obj.id, t.requests[obj.id], Responded(obj))]
    ensures obj.id !in t.requests ==> r.delivered == t.delivered
  {
    if obj.id in t.requests then
      Table(t.requests - {obj.id}, t.delivered + [Delivery(obj.id, t.requests[obj.id], Responded(obj))])
    else t
  }

  /** The timer set by `startTimeout(id)` firing: a still pending request is
      taken out and its callback gets a TimeoutError; otherwise nothing. */
  function OnTimeout(t: Table, id: Id): (r: Table)
    ensures r.requests == t.requests - {id}
    ensures id in t.requests ==> r.delivered == t.delivered + [Delivery(id, t.requests[id], Failed(Errors.TimeoutError(id)))]
    ensures id !in t.requests ==> r.delivered == t.delivered
  {
    if id in t.requests then
      Table(t.requests - {id}, t.delivered + [Delivery(id, t.requests[id], Failed(Errors.TimeoutError(id)))])
    else t
  }

  /** Responses handled in arrival order. */
  function OnResponses(t: Table, objs: seq<Response>): Table
  {
    if objs == [] then t else OnResponse(OnResponses(t, objs[..|objs| - 1]), objs[|objs| - 1])
  }

  lemma OnResponsesSnoc(t: Table, objs: seq<Response>, obj: Response)
    ensures OnResponses(t, objs + [obj]) == OnResponse(OnResponses(t, objs), obj)
  {
    assert (objs + [obj])[..|objs|] == objs;
  }

  /** How many invocations were scheduled for `id`. */
  function Count(ds: seq<Delivery>, id: Id): nat
  {
    if ds == [] then 0
    else Count(ds[..|ds| - 1], id) + (if ds[|ds| - 1].id == id then 1 else 0)
  }

  /** No invocation for `id` when no entry carries it. */
  lemma {:induction false} CountAbsent(ds: seq<Delivery>, id: Id)
    requires forall i :: 0 <= i < |ds| ==> ds[i].id != id
    ensures Count(ds, id) == 0
  {
    if ds != [] {
      CountAbsent(ds[..|ds| - 1], id);
    }
  }

  lemma CountSnoc(ds: seq<Delivery>, d: Delivery, id: Id)
    ensures Count(ds + [d], id) == Count(ds, id) + (if d.id == id then 1 else 0)
  {
    assert (ds + [d])[..|ds|] == ds;
  }

  /** An invocation is for a registered request, goes to the callback
      registered under its id, and carries either the response with that id
      or the timeout error naming it. */
  predicate Matches(d: Delivery, registered: map<Id, Callback>)
  {
    && d.id in registered
    && d.callback == registered[d.id]
    && match d.outcome
       case Responded(obj) => obj.id == d.id
       case Failed(e) => e == Errors.TimeoutError(d.id)
  }

  /** Exactly-once bookkeeping against every callback ever registered: a
      request is pending under its own callback and has had no invocation,
      or it is no longer pending and has had exactly one. */
  ghost predicate ExactlyOnce(t: Table, registered: map<Id, Callback>)
  {
    && t.requests.Keys <= registered.Keys
    && (forall id :: id in t.requests ==> t.requests[id] == registered[id])
    && (forall id {:trigger Count(t.delivered, id)} :: id in registered ==> Count(t.delivered, id) == if id in t.requests then 0 else 1)
    && (forall i :: 0 <= i < |t.delivered| ==> Matches(t.delivered[i], registered))
  }

  lemma {:induction false} RegisterKeepsExactlyOnce(t: Table, registered: map<Id, Callback>, id: Id, cb: Callback)
    requires ExactlyOnce(t, registered) && id !in registered
    ensures ExactlyOnce(Table(t.requests[id := cb], t.delivered), registered[id := cb])
  {
    var reg := registered[id := cb];
    forall i | 0 <= i < |t.delivered|
      ensures Matches(t.delivered[i], reg)
    {
      assert Matches(t.delivered[i], registered);
    }
    CountAbsent(t.delivered, id);
  }

  lemma {:induction false} ResponseKeepsExactlyOnce(t: Table, registered: map<Id, Callback>, obj: Response)
    requires ExactlyOnce(t, registered)
    ensures ExactlyOnce(OnResponse(t, obj), registered)
  {
    if obj.id in t.requests {
      var d := Delivery(obj.id, t.requests[obj.id], Responded(obj));
      forall id | id in registered
        ensures Count(t.delivered + [d], id) == if id in t.requests - {obj.id} then 0 else 1
      {
        CountSnoc(t.delivered, d, id);
      }
    }
  }

  lemma {:induction false} TimeoutKeepsExactlyOnce(t: Table, registered: map<Id, Callback>, id: Id)
    requires ExactlyOnce(t, registered)
    ensures ExactlyOnce(OnTimeout(t, id), registered)
  {
    if id in t.requests {
      var d := Delivery(id, t.requests[id], Failed(Errors.TimeoutError(id)));
      forall x | x in registered
        ensures Count(t.delivered + [d], x) == if x in t.requests - {id} then 0 else 1
      {
        CountSnoc(t.delivered, d, x);
      }
    }
  }

  /** Once a request's timer has fired, the request has had exactly one
      outcome: the response that came first, or the timeout itself. */
  lemma {:induction false} TimeoutSettles(t: Table, registered: map<Id, Callback>, id: Id)
    requires ExactlyOnce(t, registered) && id in registered
    ensures id !in OnTimeout(t, id).requests
    ensures Count(OnTimeout(t, id).delivered, id) == 1
  {
    TimeoutKeepsExactlyOnce(t, registered, id);
  }

  /** Whichever of a response and the timeout comes second finds nothing to
      do: a request's callback is invoked at most once. */
  lemma AtMostOneOutcome(t: Table, obj: Response)
    ensures OnTimeout(OnResponse(t, obj), obj.id) == OnResponse(t, obj)
    ensures OnResponse(OnTimeout(t, obj.id), obj) == OnTimeout(t, obj.id)
    ensures OnResponse(OnResponse(t, obj), obj) == OnResponse(t, obj)
  {
  }

  /** The ids of a sequence of responses. */
  function Ids(objs: seq<Response>): set<Id>
  {
    set i | 0 <= i < |objs| :: objs[i].id
  }

  /** Responses to pending requests are correlated by id, in whatever order
      they arrive: the i-th response goes to the callback registered under
      its own id, and exactly those ids stop being pending. */
  lemma {:induction false} CorrelationById(t: Table, objs: seq<Response>)
    requires forall i :: 0 <= i < |objs| ==> objs[i].id in t.requests
    requires forall i, j :: 0 <= i < j < |objs| ==> objs[i].id != objs[j].id
    ensures OnResponses(t, objs).requests == t.requests - Ids(objs)
    ensures |OnResponses(t, objs).delivered| == |t.delivered| + |objs|
    ensures OnResponses(t, objs).delivered[..|t.delivered|] == t.delivered
    ensures forall i :: 0 <= i < |objs| ==>
      OnResponses(t, objs).delivered[|t.delivered| + i] == Delivery(objs[i].id, t.requests[objs[i].id], Responded(objs[i]))
  {
    if objs != [] {
      var k := |objs| - 1;
      var prefix := objs[..k];
      var obj := objs[k];
      CorrelationById(t, prefix);
      var u := OnResponses(t, prefix);
      assert obj.id !in Ids(prefix);
      assert Ids(objs) == Ids(prefix) + {obj.id} by {
        assert objs == prefix + [obj];
      }
      assert OnResponses(t, objs) == OnResponse(u, obj);
      forall i | 0 <= i < |objs|
        ensures OnResponses(t, objs).delivered[|t.delivered| + i] == Delivery(objs[i].id, t.requests[objs[i].id], Responded(objs[i]))
      {
        if i < k {
          assert prefix[i] == objs[i];
        }
      }
    } else {
      assert Ids(objs) == {};
    }
  }

  /** The payloads of `reqs`, serialised in order. */
  function RequestPayloads(codec: Codec, reqs: seq<Request>): (ps: seq<seq<byte>>)
    ensures |ps| == |reqs|
  {
    seq(|reqs|, i requires 0 <= i < |reqs| => codec.encodeRequest(reqs[i]))
  }

  /** The responses parsed from `ps`, in order. */
  function DecodeResponses(codec: Codec, ps: seq<seq<byte>>): (objs: seq<Response>)
    ensures |objs| == |ps|
  {
    seq(|ps|, i requires 0 <= i < |ps| => codec.decodeResponse(ps[i]))
  }

  /** `bytes` are exactly the frames of `reqs`, in order. */
  ghost predicate Transmitted(codec: Codec, reqs: seq<Request>, bytes: seq<byte>)
  {
    Framable(RequestPayloads(codec, reqs)) && bytes == EncodeFrames(RequestPayloads(codec, reqs))
  }

  lemma TransmittedNothing(codec: Codec)
    ensures Transmitted(codec, [], [])
  {
    assert RequestPayloads(codec, []) == [];
  }

  /** One more request sent appends exactly its frame. */
  lemma TransmittedSnoc(codec: Codec, reqs: seq<Request>, bytes: seq<byte>, r: Request)
    requires Transmitted(codec, reqs, bytes) && |codec.encodeRequest(r)| < TWO_32
    ensures Transmitted(codec, reqs + [r], bytes + EncodeFrame(codec.encodeRequest(r)))
  {
    var p := codec.encodeRequest(r);
    assert RequestPayloads(codec, reqs + [r]) == RequestPayloads(codec, reqs) + [p];
    EncodeFramesAppend(RequestPayloads(codec, reqs), [p]);
    assert EncodeFrames([p]) == EncodeFrame(p);
  }

  /** Client(path, timeout): the state its closures share. The socket is
      reduced to the bytes written to it. */
  class Client {
    const codec: Codec
    const frameBuffer: FrameBuffer
    var requests: map<Id, Callback>
    var ready: bool
    var queue: Option<seq<byte>>
    /** Bytes handed to `client.write`, in order. */
    var written: seq<byte>
    /** Callback invocations scheduled with `process.nextTick`, in order. */
    var delivered: seq<Delivery>
    /** Every request `send` returned, and the callback it registered. */
    ghost var sent: seq<Request>
    ghost var registered: map<Id, Callback>

    function Snapshot(): Table
      reads this
    {
      Table(requests, delivered)
    }

    /** The queued bytes, or none. */
    function Queued(): seq<byte>
      reads this
    {
      if queue.Some? then queue.value else []
    }

    /** Each callback runs at most once and only for its own request, and
        the bytes written and queued are exactly the frames of the requests
        sent, in order; nothing is written before the connection is up and
        nothing is queued after. (The frame buffer's own invariant is
        `frameBuffer.Valid()`.) */
    ghost predicate Valid()
      reads this
    {
      && ExactlyOnce(Snapshot(), registered)
      && Transmitted(codec, sent, written + Queued())
      && (ready ==> queue.None?)
      && (!ready ==> written == [])
    }

    constructor (codec: Codec)
      ensures Valid() && frameBuffer.Valid() && fresh(frameBuffer)
      ensures frameBuffer.State() == Initial && frameBuffer.delivered == [] && frameBuffer.fed == []
      ensures this.codec == codec
      ensures requests == map[] && !ready && queue.None? && written == [] && delivered == []
      ensures sent == [] && registered == map[]
    {
      this.codec := codec;
      frameBuffer := new FrameBuffer();
      requests := map[];
      ready := false;
      queue := None;
      written := [];
      delivered := [];
      sent := [];
      registered := map[];
      TransmittedNothing(codec);
    }

    /** `send(conn, data, cb)` with `id` the fresh id `uuid()` returned: the
        request is registered under its callback and its frame goes to the
        socket, or onto the queue while the connection is not up. */
    method Send(id: Id, conn: Value, data: Value, cb: Callback) returns (request: Request)
      requires Valid()
      requires id !in registered
      requires |codec.encodeRequest(Request(id, conn, data))| < TWO_32
      modifies this`requests, this`registered, this`written, this`queue, this`sent
      ensures Valid()
      ensures request == Request(id, conn, data)
      ensures requests == old(requests)[id := cb] && delivered == old(delivered)
      ensures sent == old(sent) + [request] && registered == old(registered)[id := cb]
      ensures ready == old(ready)
      ensures ready ==> written == old(written) + EncodeFrame(codec.encodeRequest(request)) && queue.None?
      ensures !ready ==> written == [] && queue == Some(old(Queued()) + EncodeFrame(codec.encodeRequest(request)))
    {
      request := Request(id, conn, data);
      var payload := codec.encodeRequest(request);
      var frame := EncodeBE32(|payload|) + payload;
      assert frame == EncodeFrame(payload);
      Register(id, cb);
      ghost var table := Snapshot();
      ghost var before := written + Queued();
      Transmit(frame);
      assert Snapshot() == table;
      TransmittedSnoc(codec, sent, before, request);
      sent := sent + [request];
    }

    /** `requests.set(id, cb)` for an id never used before. */
    method Register(id: Id, cb: Callback)
      requires ExactlyOnce(Snapshot(), registered) && id !in registered
      modifies this`requests, this`registered
      ensures ExactlyOnce(Snapshot(), registered)
      ensures requests == old(requests)[id := cb] && registered == old(registered)[id := cb]
    {
      RegisterKeepsExactlyOnce(Snapshot(), registered, id, cb);
      requests := requests[id := cb];
      registered := registered[id := cb];
    }

    /** The branch of `send` that writes a frame, or queues it while the
        connection is not up. */
    method Transmit(frame: seq<byte>)
      requires ready ==> queue.None?
      requires !ready ==> written == []
      modifies this`written, this`queue
      ensures written + Queued() == old(written + Queued()) + frame
      ensures ready ==> written == old(written) + frame && queue.None?
      ensures !ready ==> written == [] && queue == Some(old(Queued()) + frame)
    {
      if !ready && queue.Some? {
        queue := Some(queue.value + frame);
      } else if !ready {
        queue := Some(frame);
        assert queue.value == old(Queued()) + frame;
      } else {
        written := written + frame;
      }
    }

    /** `onConnect`: flush the queue and mark the connection ready. */
    method OnConnect()
      requires Valid()
      modifies this
      ensures Valid()
      ensures ready && queue.None?
      ensures written == old(written) + old(Queued())
      ensures requests == old(requests) && delivered == old(delivered)
      ensures sent == old(sent) && registered == old(registered)
    {
      if queue.Some? {
        written := written + queue.value;
        queue := None;
      }
      ready := true;
    }

    /** `onFrame(payload)`: parse the response and route it by id. */
    method OnFrame(payload: seq<byte>)
      requires Valid()
      modifies this
      ensures Valid()
      ensures Snapshot() == OnResponse(old(Snapshot()), codec.decodeResponse(payload))
      ensures ready == old(ready) && queue == old(queue) && written == old(written)
      ensures sent == old(sent) && registered == old(registered)
    {
      var obj := codec.decodeResponse(payload);
      ResponseKeepsExactlyOnce(Snapshot(), registered, obj);
      if obj.id in requests {
        var cb := requests[obj.id];
        requests := requests - {obj.id};
        delivered := delivered + [Delivery(obj.id, cb, Responded(obj))];
      }
    }

    /** The timer `startTimeout(id)` set running out. */
    method FireTimeout(id: Id)
      requires Valid()
      modifies this
      ensures Valid()
      ensures Snapshot() == OnTimeout(old(Snapshot()), id)
      ensures ready == old(ready) && queue == old(queue) && written == old(written)
      ensures sent == old(sent) && registered == old(registered)
    {
      TimeoutKeepsExactlyOnce(Snapshot(), registered, id);
      if id in requests {
        var cb := requests[id];
        requests := requests - {id};
        delivered := delivered + [Delivery(id, cb, Failed(Errors.TimeoutError(id)))];
      }
    }

    /** A `data` event: the chunk goes through the frame buffer, and then
        the `onFrame` calls it scheduled run, in order. */
    method OnData(chunk: seq<byte>)
      requires Valid() && frameBuffer.Valid()
      modifies this, frameBuffer
      ensures Valid() && frameBuffer.Valid()
      ensures frameBuffer.State() == AfterFeed(old(frameBuffer.State()), chunk).state
      ensures frameBuffer.delivered == old(frameBuffer.delivered) + AfterFeed(old(frameBuffer.State()), chunk).out
      ensures frameBuffer.fed == old(frameBuffer.fed) + chunk
      ensures Snapshot() == OnResponses(old(Snapshot()), DecodeResponses(codec, AfterFeed(old(frameBuffer.State()), chunk).out))
      ensures ready == old(ready) && queue == old(queue) && written == old(written)
      ensures sent == old(sent) && registered == old(registered)
    {
      var start := |frameBuffer.delivered|;
      frameBuffer.Feed(chunk);
      RunScheduled(frameBuffer.delivered[start..]);
    }

    /** The scheduled `onFrame` calls running, one per payload, in the order
        the frame buffer scheduled them. */
    method RunScheduled(payloads: seq<seq<byte>>)
      requires Valid()
      modifies this
      ensures Valid()
      ensures Snapshot() == OnResponses(old(Snapshot()), DecodeResponses(codec, payloads))
      ensures ready == old(ready) && queue == old(queue) && written == old(written)
      ensures sent == old(sent) && registered == old(registered)
    {
      var i := 0;
      while i < |payloads|
        invariant 0 <= i <= |payloads|
        invariant Valid()
        invariant Snapshot() == OnResponses(old(Snapshot()), DecodeResponses(codec, payloads[..i]))
        invariant ready == old(ready) && queue == old(queue) && written == old(written)
        invariant sent == old(sent) && registered == old(registered)
      {
        ghost var done := DecodeResponses(codec, payloads[..i]);
        OnFrame(payloads[i]);
        assert DecodeResponses(codec, payloads[..i + 1]) == done + [codec.decodeResponse(payloads[i])];
        OnResponsesSnoc(old(Snapshot()), done, codec.decodeResponse(payloads[i]));
        i := i + 1;
      }
      assert payloads[..i] == payloads;
    }
  }
}

=== FILE: decoding.dfy ===
/** FrameBuffer: the incremental decoder behind both ends of a connection.
    Each call appends a chunk of bytes to `buffer` and slices off every
    complete payload it can, reading a 4-byte big-endian length before each.
    Payloads are handed to `onFrame` through `process.nextTick`, which runs
    them later in the order they were scheduled; the model records that
    order as the `delivered` log.

    `frameLength` is tested for truthiness, so a length prefix of 0 counts as
    "no length": a zero-length frame is never delivered, and the prefix after
    it is only read on the next call. */
module Decoding {
  import opened Options
  import opened Wire

  /** The decoder's two closure variables. */
  datatype Decoder = Decoder(buffer: seq<byte>, frameLength: Option<nat>)

  /** The state of a fresh FrameBuffer (`buffer` and `frameLength` both null). */
  const Initial: Decoder := Decoder([], None)

  /** `frameLength` as the guards read it: `null` and `0` are both falsy. */
  predicate HasLength(frameLength: Option<nat>)
  {
    frameLength.Some? && frameLength.value != 0
  }

  /** A pending length is one that `readUInt32BE` can produce. */
  predicate WellFormed(d: Decoder)
  {
    d.frameLength.Some? ==> d.frameLength.value < TWO_32
  }

  /** One run of the decoder: the state after it, the payloads it scheduled,
      and the bytes it sliced off (length prefixes and payloads, in order). */
  datatype Step = Step(state: Decoder, out: seq<seq<byte>>, used: seq<byte>)

  /** The `while` loop: deliver a payload while a positive length is pending
      and that many bytes are buffered, then read the next prefix if four
      bytes remain. It ends in a state where the loop guard is false, and
      every byte it was given is either sliced off or still buffered. */
  function AfterDrain(buffer: seq<byte>, frameLength: Option<nat>): (r: Step)
    requires frameLength.Some? ==> frameLength.value < TWO_32
    ensures WellFormed(r.state)
    ensures !(HasLength(r.state.frameLength) && |r.state.buffer| >= r.state.frameLength.value)
    ensures r.state.frameLength.None? ==> |r.state.buffer| < 4 || r.state == Decoder(buffer, frameLength)
    decreases |buffer|
  {
    if HasLength(frameLength) && |buffer| >= frameLength.value then
      var n := frameLength.value;
      var payload := buffer[..n];
      var rest := buffer[n..];
      if |rest| >= 4 then
        var next := AfterDrain(rest[4..], Some(DecodeBE32(rest)));
        Step(next.state, [payload] + next.out, payload + rest[..4] + next.used)
      else
        Step(Decoder(rest, None), [payload], payload)
    else
      Step(Decoder(buffer, frameLength), [], [])
  }

  /** One call of the function FrameBuffer returns. Afterwards the decoder is
      at rest: no length and fewer than 4 bytes, or a length with fewer bytes
      than it announces (or a zero length, which stalls). No byte is lost or
      duplicated: the old buffer and the chunk are exactly the bytes sliced
      off followed by the new buffer. */
  function AfterFeed(d: Decoder, data: seq<byte>): (r: Step)
    requires WellFormed(d)
    ensures WellFormed(r.state)
    ensures HasLength(r.state.frameLength) ==> |r.state.buffer| < r.state.frameLength.value
    ensures r.state.frameLength.None? ==> |r.state.buffer| < 4
  {
    var buffer := d.buffer + data;
    if !HasLength(d.frameLength) && |buffer| >= 4 then
      var s := AfterDrain(buffer[4..], Some(DecodeBE32(buffer)));
      Step(s.state, s.out, buffer[..4] + s.used)
    else
      AfterDrain(buffer, d.frameLength)
  }

  /** The loop loses and duplicates no byte: what it was given is exactly
      what it sliced off, in order, followed by what it left buffered. */
  lemma {:induction false} DrainConservesBytes(buffer: seq<byte>, frameLength: Option<nat>)
    requires frameLength.Some? ==> frameLength.value < TWO_32
    ensures buffer == AfterDrain(buffer, frameLength).used + AfterDrain(buffer, frameLength).state.buffer
    decreases |buffer|
  {
    if HasLength(frameLength) && |buffer| >= frameLength.value {
      var n := frameLength.value;
      var rest := buffer[n..];
      if |rest| >= 4 {
        var next := AfterDrain(rest[4..], Some(DecodeBE32(rest)));
        var head := buffer[..n] + rest[..4];
        assert AfterDrain(buffer, frameLength) == Step(next.state, [buffer[..n]] + next.out, head + next.used);
        DrainConservesBytes(rest[4..], Some(DecodeBE32(rest)));
        SplitFrame(buffer, n);
        Regroup(buffer, head, rest[4..], next.used, next.state.buffer);
      }
    }
  }

  /** A buffer holding a payload of `n` bytes and a further prefix is the
      payload, the prefix and what follows them. */
  lemma SplitFrame(buffer: seq<byte>, n: nat)
    requires n + 4 <= |buffer|
    ensures buffer == (buffer[..n] + buffer[n..][..4]) + buffer[n..][4..]
  {
    assert buffer == buffer[..n] + buffer[n..];
    assert buffer[n..] == buffer[n..][..4] + buffer[n..][4..];
  }

  /** Slicing more bytes off the front of what stays buffered. */
  lemma Regroup(all: seq<byte>, used: seq<byte>, rest: seq<byte>, more: seq<byte>, left: seq<byte>)
    requires all == used + rest && rest == more + left
    ensures all == (used + more) + left
  {
    assert used + (more + left) == (used + more) + left;
  }

  /** Byte conservation for one call: the old buffer and the chunk are
      exactly the bytes sliced off followed by the new buffer. */
  lemma FeedConservesBytes(d: Decoder, data: seq<byte>)
    requires WellFormed(d)
    ensures d.buffer + data == AfterFeed(d, data).used + AfterFeed(d, data).state.buffer
  {
    var buffer := d.buffer + data;
    if !HasLength(d.frameLength) && |buffer| >= 4 {
      var s := AfterDrain(buffer[4..], Some(DecodeBE32(buffer)));
      assert AfterFeed(d, data) == Step(s.state, s.out, buffer[..4] + s.used);
      DrainConservesBytes(buffer[4..], Some(DecodeBE32(buffer)));
      assert buffer == buffer[..4] + buffer[4..];
      Regroup(buffer, buffer[..4], buffer[4..], s.used, s.state.buffer);
    } else {
      DrainConservesBytes(buffer, d.frameLength);
    }
  }

  /** Bookkeeping step for the FrameBuffer's ghost logs. */
  lemma ShiftConsumed(fed: seq<byte>, consumed: seq<byte>, buffer: seq<byte>, data: seq<byte>,
                      used: seq<byte>, buffer': seq<byte>)
    requires fed == consumed + buffer && buffer + data == used + buffer'
    ensures fed + data == (consumed + used) + buffer'
  {
    assert fed + data == consumed + (buffer + data);
  }

  /** Feeding a sequence of chunks one call at a time. */
  function AfterChunks(d: Decoder, chunks: seq<seq<byte>>): (r: Step)
    requires WellFormed(d)
    ensures WellFormed(r.state)
    decreases |chunks|
  {
    if chunks == [] then Step(d, [], [])
    else
      var s := AfterFeed(d, chunks[0]);
      var t := AfterChunks(s.state, chunks[1..]);
      Step(t.state, s.out + t.out, s.used + t.used)
  }

  /** The rest states reachable when every prefix is positive: no length and
      fewer than 4 bytes buffered, or a positive length n with fewer than n
      bytes buffered. */
  predicate AtRest(d: Decoder)
  {
    match d.frameLength
    case None => |d.buffer| < 4
    case Some(n) => 0 < n < TWO_32 && |d.buffer| < n
  }

  /** The not-yet-delivered part of the stream the decoder holds: the pending
      length prefix, if any, followed by the buffer. */
  function Pending(d: Decoder): (p: seq<byte>)
    requires WellFormed(d)
  {
    if HasLength(d.frameLength) then EncodeBE32(d.frameLength.value) + d.buffer else d.buffer
  }

  /** A decoder at rest holds no complete frame. */
  lemma {:induction false} AtRestParsesNothing(d: Decoder)
    requires AtRest(d)
    ensures Parse(Pending(d)) == Parsed([], Pending(d))
  {
    if d.frameLength.Some? {
      var n := d.frameLength.value;
      DecodeEncodeBE32(n);
      assert Pending(d)[..4] == EncodeBE32(n);
      assert DecodeBE32(Pending(d)) == n;
    }
  }

  /** The loop delivers exactly what the reference decoder parses from the
      pending prefix and the buffer, and stops at rest holding the rest. */
  lemma {:induction false} DrainMatchesParse(buffer: seq<byte>, n: nat)
    requires 0 < n < TWO_32
    requires PositiveLengths(EncodeBE32(n) + buffer)
    ensures AfterDrain(buffer, Some(n)).out == Parse(EncodeBE32(n) + buffer).payloads
    ensures AtRest(AfterDrain(buffer, Some(n)).state)
    ensures Pending(AfterDrain(buffer, Some(n)).state) == Parse(EncodeBE32(n) + buffer).rest
    decreases |buffer|
  {
    var s := EncodeBE32(n) + buffer;
    DecodeEncodeBE32(n);
    assert s[..4] == EncodeBE32(n);
    assert DecodeBE32(s) == n;
    if |buffer| >= n {
      var rest := buffer[n..];
      assert s[4..4 + n] == buffer[..n];
      assert s[4 + n..] == rest;
      if |rest| >= 4 {
        var m := DecodeBE32(rest);
        EncodeDecodeBE32(rest);
        assert rest == EncodeBE32(m) + rest[4..];
        DrainMatchesParse(rest[4..], m);
      }
    }
  }

  /** One call delivers exactly the payloads the reference decoder finds in
      the pending bytes followed by the chunk, and keeps the rest pending. */
  lemma {:induction false} FeedMatchesParse(d: Decoder, data: seq<byte>)
    requires AtRest(d)
    requires PositiveLengths(Pending(d) + data)
    ensures AfterFeed(d, data).out == Parse(Pending(d) + data).payloads
    ensures AtRest(AfterFeed(d, data).state)
    ensures Pending(AfterFeed(d, data).state) == Parse(Pending(d) + data).rest
  {
    var buffer := d.buffer + data;
    match d.frameLength
    case None =>
      if |buffer| >= 4 {
        var m := DecodeBE32(buffer);
        EncodeDecodeBE32(buffer);
        assert buffer == EncodeBE32(m) + buffer[4..];
        DrainMatchesParse(buffer[4..], m);
      }
    case Some(n) =>
      assert Pending(d) + data == EncodeBE32(n) + buffer;
      DrainMatchesParse(buffer, n);
  }

  /** Chunking invariance: however the stream is cut into chunks, feeding
      them in order delivers the payloads the reference decoder finds in the
      whole stream, in order, and leaves its left-over bytes pending. */
  lemma {:induction false} ChunkingInvariance(d: Decoder, chunks: seq<seq<byte>>)
    requires AtRest(d)
    requires PositiveLengths(Pending(d) + Flatten(chunks))
    ensures AfterChunks(d, chunks).out == Parse(Pending(d) + Flatten(chunks)).payloads
    ensures AtRest(AfterChunks(d, chunks).state)
    ensures Pending(AfterChunks(d, chunks).state) == Parse(Pending(d) + Flatten(chunks)).rest
    decreases |chunks|
  {
    if chunks == [] {
      assert Pending(d) + Flatten(chunks) == Pending(d);
      AtRestParsesNothing(d);
    } else {
      var p := Pending(d);
      var c := chunks[0];
      var f := Flatten(chunks[1..]);
      assert p + Flatten(chunks) == (p + c) + f;
      PositiveLengthsPrefix(p + c, f);
      FeedMatchesParse(d, c);
      PositiveLengthsRest(p + c, f);
      ChunkingInvariance(AfterFeed(d, c).state, chunks[1..]);
      ParseAppend(p + c, f);
    }
  }

  /** The frames of non-empty payloads, cut into any chunks and fed to a fresh
      decoder, deliver exactly those payloads in order and leave the decoder
      as it started. */
  lemma {:induction false} ChunkedFramesDelivered(ps: seq<seq<byte>>, chunks: seq<seq<byte>>)
    requires Framable(ps) && AllNonEmpty(ps)
    requires Flatten(chunks) == EncodeFrames(ps)
    ensures AfterChunks(Initial, chunks).out == ps
    ensures AfterChunks(Initial, chunks).state == Initial
  {
    assert Pending(Initial) + Flatten(chunks) == EncodeFrames(ps);
    EncodeFramesPositive(ps);
    ParseEncodeFrames(ps);
    ChunkingInvariance(Initial, chunks);
  }

  /** An empty chunk fed to a decoder at rest delivers nothing and changes
      nothing. */
  lemma EmptyChunkAtRest(d: Decoder)
    requires AtRest(d)
    ensures AfterFeed(d, []) == Step(d, [], [])
  {
    assert d.buffer + [] == d.buffer;
  }

  /** The loop never schedules an empty payload: a zero length stops it. */
  lemma {:induction false} DrainNeverDeliversEmpty(buffer: seq<byte>, frameLength: Option<nat>)
    requires frameLength.Some? ==> frameLength.value < TWO_32
    ensures AllNonEmpty(AfterDrain(buffer, frameLength).out)
    decreases |buffer|
  {
    if HasLength(frameLength) && |buffer| >= frameLength.value {
      var n := frameLength.value;
      var rest := buffer[n..];
      if |rest| >= 4 {
        var next := AfterDrain(rest[4..], Some(DecodeBE32(rest)));
        DrainNeverDeliversEmpty(rest[4..], Some(DecodeBE32(rest)));
        assert AfterDrain(buffer, frameLength).out == [buffer[..n]] + next.out;
      }
    }
  }

  /** Whatever the state and the chunk, a call never schedules an empty
      payload, so a zero-length frame is never delivered. */
  lemma FeedNeverDeliversEmpty(d: Decoder, data: seq<byte>)
    requires WellFormed(d)
    ensures AllNonEmpty(AfterFeed(d, data).out)
  {
    var buffer := d.buffer + data;
    if !HasLength(d.frameLength) && |buffer| >= 4 {
      DrainNeverDeliversEmpty(buffer[4..], Some(DecodeBE32(buffer)));
    } else {
      DrainNeverDeliversEmpty(buffer, d.frameLength);
    }
  }

  /** A zero-length frame followed by a frame of payload `p`, arriving in one
      chunk: the first call delivers nothing and stalls on the zero length with
      the second frame still buffered; only the next call, even with an empty
      chunk, reads its prefix and delivers `p`. The empty payload itself is
      never delivered. */
  lemma ZeroLengthFrameStalls(p: seq<byte>)
    requires 0 < |p| < TWO_32
    ensures AfterFeed(Initial, EncodeFrame([]) + EncodeFrame(p)).out == []
    ensures AfterFeed(Initial, EncodeFrame([]) + EncodeFrame(p)).state == Decoder(EncodeFrame(p), Some(0))
    ensures AfterFeed(Decoder(EncodeFrame(p), Some(0)), []).out == [p]
    ensures AfterFeed(Decoder(EncodeFrame(p), Some(0)), []).state == Initial
  {
    var s := EncodeFrame([]) + EncodeFrame(p);
    assert s[..4] == EncodeFrame([])[..4];
    assert s[4..] == EncodeFrame(p);
    var f := EncodeFrame(p);
    assert f + [] == f;
    assert f[4..][..|p|] == p;
    assert f[4..][|p|..] == [];
  }

  /** Whenever the bytes fed so far carry only positive prefixes, the decoder
      is at rest, has delivered exactly the payloads the reference decoder
      finds in them, and holds the left-over bytes. */
  ghost predicate AgreesWithParse(d: Decoder, fed: seq<byte>, delivered: seq<seq<byte>>)
    requires WellFormed(d)
  {
    PositiveLengths(fed) ==>
      && AtRest(d)
      && delivered == Parse(fed).payloads
      && Pending(d) == Parse(fed).rest
  }

  /** The decoder's agreement with the reference decoder on everything fed
      so far survives one more chunk. */
  lemma FeedKeepsParse(d: Decoder, fed: seq<byte>, delivered: seq<seq<byte>>, data: seq<byte>)
    requires WellFormed(d) && AgreesWithParse(d, fed, delivered)
    ensures AgreesWithParse(AfterFeed(d, data).state, fed + data, delivered + AfterFeed(d, data).out)
  {
    if PositiveLengths(fed + data) {
      PositiveLengthsPrefix(fed, data);
      PositiveLengthsRest(fed, data);
      FeedMatchesParse(d, data);
      ParseAppend(fed, data);
    }
  }

  /** FrameBuffer(onFrame): the closure's state as an object. */
  class FrameBuffer {
    var buffer: seq<byte>
    var frameLength: Option<nat>
    /** The payloads scheduled for `onFrame`, in the order they will run. */
    var delivered: seq<seq<byte>>
    /** Every byte ever fed, and the bytes sliced off so far. */
    ghost var fed: seq<byte>
    ghost var consumed: seq<byte>

    function State(): Decoder
      reads this
    {
      Decoder(buffer, frameLength)
    }

    /** Nothing is lost or duplicated, and whenever the stream so far carries
        only positive prefixes the decoder is at rest and has delivered
        exactly what the reference decoder finds in it. */
    ghost predicate Valid()
      reads this
    {
      && fed == consumed + buffer
      && WellFormed(State())
      && AgreesWithParse(State(), fed, delivered)
    }

    constructor ()
      ensures Valid()
      ensures State() == Initial && delivered == [] && fed == []
    {
      buffer := [];
      frameLength := None;
      delivered := [];
      fed := [];
      consumed := [];
    }

    /** Feed one chunk of the stream: append it, read a length prefix if
        none is pending and four bytes are there, then drain. */
    method Feed(data: seq<byte>)
      requires Valid()
      modifies this
      ensures Valid()
      ensures State() == AfterFeed(old(State()), data).state
      ensures delivered == old(delivered) + AfterFeed(old(State()), data).out
      ensures fed == old(fed) + data
      ensures consumed == old(consumed) + AfterFeed(old(State()), data).used
    {
      ghost var target := AfterFeed(old(State()), data);
      // `buffer = data` on the first call is appending to nothing.
      buffer := buffer + data;
      if !HasLength(frameLength) && |buffer| >= 4 {
        frameLength := Some(DecodeBE32(buffer));
        buffer := buffer[4..];
      }
      Drain();
      fed := fed + data;
      consumed := consumed + target.used;
      FeedConservesBytes(old(State()), data);
      ShiftConsumed(old(fed), old(consumed), old(buffer), data, target.used, buffer);
      FeedKeepsParse(old(State()), old(fed), old(delivered), data);
    }

    /** The `while` loop of the feed function: slice off payloads while a
        positive length is pending and that many bytes are buffered. */
    method Drain()
      requires WellFormed(State())
      modifies this`buffer, this`frameLength, this`delivered
      ensures State() == AfterDrain(old(buffer), old(frameLength)).state
      ensures delivered == old(delivered) + AfterDrain(old(buffer), old(frameLength)).out
    {
      ghost var target := AfterDrain(buffer, frameLength);
      while HasLength(frameLength) && |buffer| >= frameLength.value
        invariant WellFormed(State())
        invariant AfterDrain(buffer, frameLength).state == target.state
        invariant delivered + AfterDrain(buffer, frameLength).out == old(delivered) + target.out
        decreases |buffer|
      {
        SliceFrame();
      }
    }

    /** One iteration of that loop: schedule the payload, then read the next
        length prefix if four bytes remain, or forget the length. What is
        left to drain accounts for the rest of the loop's work. */
    method SliceFrame()
      requires WellFormed(State()) && HasLength(frameLength) && |buffer| >= frameLength.value
      modifies this`buffer, this`frameLength, this`delivered
      ensures WellFormed(State())
      ensures |buffer| < old(|buffer|)
      ensures AfterDrain(buffer, frameLength).state == AfterDrain(old(buffer), old(frameLength)).state
      ensures delivered + AfterDrain(buffer, frameLength).out == old(delivered) + AfterDrain(old(buffer), old(frameLength)).out
      ensures delivered == old(delivered) + [old(buffer)[..old(frameLength).value]]
      ensures var rest := old(buffer)[old(frameLength).value..];
        State() == if |rest| >= 4 then Decoder(rest[4..], Some(DecodeBE32(rest))) else Decoder(rest, None)
    {
      var n := frameLength.value;
      var payload := buffer[..n];
      buffer := buffer[n..];
      delivered := delivered + [payload];
      if |buffer| >= 4 {
        frameLength := Some(DecodeBE32(buffer));
        buffer := buffer[4..];
        assert AfterDrain(old(buffer), old(frameLength)).out == [payload] + AfterDrain(buffer, frameLength).out;
      } else {
        frameLength := None;
        assert AfterDrain(old(buffer), old(frameLength)).out == [payload];
      }
    }
  }

  /** With positive prefixes, the bytes fed so far are exactly the frames of
      the payloads delivered, followed by the bytes still pending. */
  lemma DeliveredReassembles(fb: FrameBuffer)
    requires fb.Valid() && PositiveLengths(fb.fed)
    ensures Framable(fb.delivered)
    ensures fb.fed == EncodeFrames(fb.delivered) + Pending(fb.State())
  {
    ParseReassembles(fb.fed);
    assert fb.delivered == Parse(fb.fed).payloads;
  }
}

=== FILE: endtoend.dfy ===
/** The client and the server together: requests framed by `send`, cut into
    chunks in any way on the way to the server, answered by it, and the
    answers cut into chunks in any way on the way back. */
module EndToEnd {
  import opened Wire
  import opened Decoding
  import opened Rpc
  import opened ClientSide
  import opened ServerSide

  /** What the client parses back for `req`: the server's answer to the
      request it parsed, as it comes out of serialisation. */
  function Received(server: Server, req: Request): Response
  {
    ResponseReceived(server.codec, Answer(server, RequestReceived(server.codec, req)))
  }

  /** Every pending request sent to a server has its callback called exactly
      with the server's answer to that very request, in the order the
      requests were sent, and is no longer pending. The bytes sent are the
      client's frames of `reqs`; the bytes received back are the frames the
      server's connection writes for the payloads it decoded. */
  lemma {:induction false} RequestsAnswered(server: Server, reqs: seq<Request>, t: Table,
                                            toServer: seq<seq<byte>>, toClient: seq<seq<byte>>)
    requires KeepsIds(server.codec) && NonEmptyPayloads(server.codec)
    requires forall i :: 0 <= i < |reqs| ==> reqs[i].id in t.requests
    requires forall i, j :: 0 <= i < j < |reqs| ==> reqs[i].id != reqs[j].id
    requires Transmitted(server.codec, reqs, Flatten(toServer))
    requires Framable(ReplyPayloads(server, AfterChunks(Initial, toServer).out))
    requires Flatten(toClient) == EncodeFrames(ReplyPayloads(server, AfterChunks(Initial, toServer).out))
    ensures AfterChunks(Initial, toServer).out == RequestPayloads(server.codec, reqs)
    ensures var received := DecodeResponses(server.codec, AfterChunks(Initial, toClient).out);
      |received| == |reqs| && forall i :: 0 <= i < |reqs| ==> received[i] == Received(server, reqs[i])
    ensures var after := OnResponses(t, DecodeResponses(server.codec, AfterChunks(Initial, toClient).out));
      && |after.delivered| == |t.delivered| + |reqs|
      && after.delivered[..|t.delivered|] == t.delivered
      && (forall i :: 0 <= i < |reqs| ==>
            after.delivered[|t.delivered| + i] == Delivery(reqs[i].id, t.requests[reqs[i].id], Responded(Received(server, reqs[i]))))
      && (forall i :: 0 <= i < |reqs| ==> reqs[i].id !in after.requests)
  {
    var codec := server.codec;
    var ps := RequestPayloads(codec, reqs);
    assert AfterChunks(Initial, toServer).out == ps by {
      assert AllNonEmpty(ps);
      ChunkedFramesDelivered(ps, toServer);
    }
    var rs := ReplyPayloads(server, ps);
    assert AfterChunks(Initial, toClient).out == rs by {
      assert AllNonEmpty(rs) by {
        forall i | 0 <= i < |rs|
          ensures |rs[i]| > 0
        {
          ReplyPayloadsAt(server, ps, i);
        }
      }
      ChunkedFramesDelivered(rs, toClient);
    }
    var received := DecodeResponses(codec, rs);
    RepliesAreAnswers(server, reqs);
    CorrelationById(t, received);
    forall i | 0 <= i < |reqs|
      ensures reqs[i].id !in OnResponses(t, received).requests
    {
      assert received[i].id == reqs[i].id;
      assert reqs[i].id in Ids(received);
    }
  }

  /** The server's replies to the serialised requests parse back, in order,
      to the answers to those requests, each carrying its request's id. */
  lemma RepliesAreAnswers(server: Server, reqs: seq<Request>)
    requires KeepsIds(server.codec)
    ensures var received := DecodeResponses(server.codec, ReplyPayloads(server, RequestPayloads(server.codec, reqs)));
      && |received| == |reqs|
      && (forall i :: 0 <= i < |reqs| ==> received[i] == Received(server, reqs[i]))
      && (forall i :: 0 <= i < |reqs| ==> received[i].id == reqs[i].id)
  {
    var received := DecodeResponses(server.codec, ReplyPayloads(server, RequestPayloads(server.codec, reqs)));
    forall i | 0 <= i < |reqs|
      ensures received[i] == Received(server, reqs[i]) && received[i].id == reqs[i].id
    {
      var req := RequestReceived(server.codec, reqs[i]);
      ReplyPayloadsAt(server, RequestPayloads(server.codec, reqs), i);
      assert received[i] == ResponseReceived(server.codec, Answer(server, req));
      assert Answer(server, req).id == req.id == reqs[i].id;
    }
  }

  /** When the request and its answer are plain JSON data, so that both come
      out of serialisation unchanged, the callback gets the server's answer
      itself. */
  lemma PlainDataAnswered(server: Server, req: Request)
    requires RequestReceived(server.codec, req) == req
    requires ResponseReceived(server.codec, Answer(server, req)) == Answer(server, req)
    ensures Received(server, req) == Answer(server, req)
  {
  }
}

=== FILE: errors.dfy ===
/** The error taxonomy: `makeError(name, defaultMessageOrTemplate)` builds a
    constructor for one kind of error; every error of that kind carries the
    kind's name and a message chosen from the constructor's arguments. The
    prototype chain (`Object.create`, `Error.call`) is reduced to the two
    properties it provides, `name` and `message`. */
module Errors {
  import opened Values

  /** The second argument of `makeError`: a default message, or a template
      function applied to the constructor's arguments. */
  datatype MessageSource =
    | Fixed(default: Value)
    | Template(render: seq<Value> -> Value)

  /** One kind of error, as `makeError` captures it. */
  datatype ErrorKind = ErrorKind(name: string, source: MessageSource)

  /** Calling the constructor that `makeError` returned with arguments `m`:
      the name comes from the kind alone, whatever the arguments. */
  function Construct(kind: ErrorKind, m: seq<Value>): (e: Value)
    ensures e.Err? && e.name == kind.name
  {
    var message :=
      match kind.source
      case Template(render) => render(m)
      case Fixed(default) =>
        var first := if |m| > 0 then m[0] else Undefined;
        if Truthy(first) then first else default;
    Err(kind.name, message)
  }

  /** With a non-function default, the message is the first argument when it
      is truthy and the default otherwise (a missing argument is `undefined`). */
  lemma FixedMessageSelection(name: string, default: Value, m: seq<Value>)
    ensures |m| > 0 && Truthy(m[0]) ==> Construct(ErrorKind(name, Fixed(default)), m).message == m[0]
    ensures (|m| == 0 || !Truthy(m[0])) ==> Construct(ErrorKind(name, Fixed(default)), m).message == default
  {
  }

  /** A template's message depends only on the arguments, never on a default. */
  lemma TemplateMessage(name: string, render: seq<Value> -> Value, m: seq<Value>)
    ensures Construct(ErrorKind(name, Template(render)), m).message == render(m)
  {
  }

  /** Errors are told apart by their kind's name: two constructed errors have
      the same name exactly when their kinds do, whatever the messages. */
  lemma KindsDistinguishedByName(k1: ErrorKind, m1: seq<Value>, k2: ErrorKind, m2: seq<Value>)
    ensures Construct(k1, m1).name == Construct(k2, m2).name <==> k1.name == k2.name
  {
  }

  /** The name every timeout error carries. */
  const TimeoutName := "TimeoutError"

  /** `makeError('TimeoutError', id => `Timeout on request ${id}`)`. */
  const TimeoutKind: ErrorKind :=
    ErrorKind(TimeoutName, Template(m => Str("Timeout on request " + Show(if |m| > 0 then m[0] else Undefined))))

  /** `TimeoutError(id)` for a request id (a string): the error named
      TimeoutError whose message names the request. */
  function TimeoutError(id: string): (e: Value)
    ensures IsTimeout(e)
  {
    Err(TimeoutName, Str("Timeout on request " + id))
  }

  /** TimeoutError is the constructor `makeError` builds from its name and
      its template. */
  lemma TimeoutErrorConstructed(id: string)
    ensures TimeoutError(id) == Construct(TimeoutKind, [Str(id)])
  {
  }

  /** The discriminator a caller branches on: "no response arrived". */
  predicate IsTimeout(e: Value)
  {
    e.Err? && e.name == TimeoutName
  }

  /** Different request ids give different timeout errors: the id can be read
      back from the message. */
  lemma TimeoutErrorInjective(id1: string, id2: string)
    ensures TimeoutError(id1) == TimeoutError(id2) ==> id1 == id2
  {
    if TimeoutError(id1) == TimeoutError(id2) {
      var prefix := "Timeout on request ";
      assert prefix + id1 == prefix + id2;
      assert id1 == (prefix + id1)[|prefix|..];
      assert id2 == (prefix + id2)[|prefix|..];
    }
  }
}

=== FILE: options.dfy ===
/** JavaScript's "nothing yet" (`null`) next to a present value. */
module Options {

  datatype Option<T> = None | Some(value: T)
}

=== FILE: rpc.dfy ===
/** The records both ends exchange, and the text codec that turns them into
    frame payloads. `JSON.stringify`, `JSON.parse` and the UTF-8 conversion
    are not modelled; a `Codec` stands for them, and the predicates below
    name the facts about them that the end-to-end property relies on. */
module Rpc {
  import opened Values
  import opened Wire

  /** A correlation id (`uuid()` produces a string). */
  type Id = string

  /** `{ id, conn, data }` as built by the client's `send`. */
  datatype Request = Request(id: Id, conn: Value, data: Value)

  /** `{ id, rendered }` or `{ id, error }` as built by the server. */
  datatype Response =
    | Rendered(id: Id, rendered: Value)
    | Errored(id: Id, error: Value)

  /** Serialisation to and from frame payloads. */
  datatype Codec = Codec(
    encodeRequest: Request -> seq<byte>,
    decodeRequest: seq<byte> -> Request,
    encodeResponse: Response -> seq<byte>,
    decodeResponse: seq<byte> -> Response)

  /** What the receiving end parses from the payload a request was
      serialised to. */
  function RequestReceived(c: Codec, r: Request): Request
  {
    c.decodeRequest(c.encodeRequest(r))
  }

  /** What the receiving end parses from the payload a response was
      serialised to. (`JSON.stringify` drops what JSON cannot represent, so
      this need not be the response itself.) */
  function ResponseReceived(c: Codec, r: Response): Response
  {
    c.decodeResponse(c.encodeResponse(r))
  }

  /** The `id` string survives serialisation in both directions. */
  ghost predicate KeepsIds(c: Codec)
  {
    && (forall r :: RequestReceived(c, r).id == r.id)
    && (forall r :: ResponseReceived(c, r).id == r.id)
  }

  /** The serialised text of an object is never empty (it is at least `{}`). */
  ghost predicate NonEmptyPayloads(c: Codec)
  {
    && (forall r :: |c.encodeRequest(r)| > 0)
    && (forall r :: |c.encodeResponse(r)| > 0)
  }
}

=== FILE: server.dfy ===
/** The server end: each connection gets its own frame buffer; every request
    frame it decodes is parsed, rendered by the user's render function, and
    answered with exactly one response frame carrying the request's id. */
module ServerSide {
  import opened Values
  import opened Wire
  import opened Decoding
  import opened Rpc

  /** How a two-parameter render function finishes: it returns a value or
      throws one. */
  datatype Completion =
    | Returned(value: Value)
    | Threw(error: Value)

  /** `renderFunc`, told apart by its declared arity (`renderFunc.length`):
      with two parameters it is called directly and its result or exception
      is passed on; otherwise it is called with a callback as third argument
      and reports `(err, rendered)` through it. */
  datatype Handler =
    | Sync(run: (Value, Value) -> Completion)
    | Async(report: (Value, Value) -> (Value, Value))

  /** Server(renderFunc, handleError) with the codec both ends use. */
  datatype Server = Server(render: Handler, handleError: Value -> Value, codec: Codec)

  /** The default `handleError`, `(e) => e.toString()`. */
  function DefaultHandleError(e: Value): Value
  {
    Str(Show(e))
  }

  /** `render(cb, conn, data)`: the arguments `cb` is called with. A
      synchronous function's result becomes `(null, result)` and its
      exception `(e)`; a callback-style function reports its own pair. */
  function Render(h: Handler, conn: Value, data: Value): (r: (Value, Value))
    ensures h.Sync? && h.run(conn, data).Returned? ==> !Truthy(r.0) && r.1 == h.run(conn, data).value
    ensures h.Sync? && h.run(conn, data).Threw? ==> r.0 == h.run(conn, data).error && r.1 == Undefined
    ensures h.Async? ==> r == h.report(conn, data)
  {
    match h
    case Sync(run) =>
      (match run(conn, data)
       case Returned(v) => (Null, v)
       case Threw(e) => (e, Undefined))
    case Async(report) => report(conn, data)
  }

  /** `error(id, error)`. */
  function ErrorResponse(handleError: Value -> Value, id: Id, err: Value): Response
  {
    Errored(id, handleError(err))
  }

  /** `response(id, rendered)`. */
  function SuccessResponse(id: Id, rendered: Value): Response
  {
    Rendered(id, rendered)
  }

  /** The callback `onFrame` passes to `render`: a truthy error is reported
      through `handleError`, anything else answers with `rendered`. Either
      way the response carries the request's id. */
  function Complete(handleError: Value -> Value, id: Id, err: Value, rendered: Value): (r: Response)
    ensures r.id == id
    ensures r.Errored? <==> Truthy(err)
    ensures r.Errored? ==> r.error == handleError(err)
    ensures r.Rendered? ==> r.rendered == rendered
  {
    if Truthy(err) then ErrorResponse(handleError, id, err) else SuccessResponse(id, rendered)
  }

  /** The response a request gets. */
  function Answer(s: Server, req: Request): (r: Response)
    ensures r.id == req.id
  {
    var (err, rendered) := Render(s.render, req.conn, req.data);
    Complete(s.handleError, req.id, err, rendered)
  }

  /** A synchronous render function's return value is the rendered answer. */
  lemma SyncReturnRenders(s: Server, req: Request)
    requires s.render.Sync? && s.render.run(req.conn, req.data).Returned?
    ensures Answer(s, req) == Rendered(req.id, s.render.run(req.conn, req.data).value)
  {
  }

  /** A truthy exception from a synchronous render function is reported
      through `handleError`; a falsy one (`throw null`, `throw ""`) is not an
      error at all and answers with `rendered` undefined. */
  lemma SyncThrowReports(s: Server, req: Request)
    requires s.render.Sync? && s.render.run(req.conn, req.data).Threw?
    ensures var e := s.render.run(req.conn, req.data).error;
      Answer(s, req) == if Truthy(e) then Errored(req.id, s.handleError(e)) else Rendered(req.id, Undefined)
  {
  }

  /** A callback-style render function's report decides the answer alone. */
  lemma AsyncReportDecides(s: Server, req: Request)
    requires s.render.Async?
    ensures Answer(s, req) == Complete(s.handleError, req.id, s.render.report(req.conn, req.data).0, s.render.report(req.conn, req.data).1)
  {
  }

  /** The callback-style function that reports what a synchronous one
      returns or throws. */
  function CallbackStyle(run: (Value, Value) -> Completion): (Value, Value) -> (Value, Value)
  {
    (conn, data) =>
      match run(conn, data)
      case Returned(v) => (Null, v)
      case Threw(e) => (e, Undefined)
  }

  /** Both calling conventions give the same answer: a synchronous render
      function and its callback-style counterpart are interchangeable. */
  lemma SyncAsyncAgree(run: (Value, Value) -> Completion, handleError: Value -> Value, codec: Codec, req: Request)
    ensures Answer(Server(Sync(run), handleError, codec), req) == Answer(Server(Async(CallbackStyle(run)), handleError, codec), req)
  {
  }

  /** With the default `handleError`, a thrown or reported non-empty string
      comes back as the error text itself. */
  lemma DefaultErrorIsMessage(id: Id, m: string, rendered: Value)
    requires m != ""
    ensures Complete(DefaultHandleError, id, Str(m), rendered) == Errored(id, Str(m))
  {
  }

  /** With the default `handleError`, a thrown or reported error object
      comes back as the text `name: message`. */
  lemma DefaultErrorObject(id: Id, name: string, m: string, rendered: Value)
    requires name != "" && m != ""
    ensures Complete(DefaultHandleError, id, Err(name, Str(m)), rendered) == Errored(id, Str(name + ": " + m))
  {
    assert Show(Str(m)) == m;
  }

  /** `respond(obj)`: the frame written for a response, framed exactly as
      the client frames requests. It decodes back to exactly the serialised
      response, with nothing left over. */
  function Respond(codec: Codec, obj: Response): (frame: seq<byte>)
    requires |codec.encodeResponse(obj)| < TWO_32
    ensures frame == EncodeFrame(codec.encodeResponse(obj))
    ensures Parse(frame) == Parsed([codec.encodeResponse(obj)], [])
  {
    var payload := codec.encodeResponse(obj);
    assert EncodeFrames([payload]) == EncodeBE32(|payload|) + payload;
    ParseEncodeFrames([payload]);
    EncodeBE32(|payload|) + payload
  }

  /** The serialised answer to the request payload `p`. */
  function Reply(s: Server, p: seq<byte>): seq<byte>
  {
    s.codec.encodeResponse(Answer(s, s.codec.decodeRequest(p)))
  }

  /** The serialised answers to the request payloads `ps`, in order. */
  function ReplyPayloads(s: Server, ps: seq<seq<byte>>): (rs: seq<seq<byte>>)
    ensures |rs| == |ps|
    decreases |ps|
  {
    if ps == [] then [] else ReplyPayloads(s, ps[..|ps| - 1]) + [Reply(s, ps[|ps| - 1])]
  }

  /** The i-th reply answers the i-th payload. */
  lemma {:induction false} ReplyPayloadsAt(s: Server, ps: seq<seq<byte>>, i: nat)
    requires i < |ps|
    ensures ReplyPayloads(s, ps)[i] == Reply(s, ps[i])
    decreases |ps|
  {
    if i < |ps| - 1 {
      ReplyPayloadsAt(s, ps[..|ps| - 1], i);
    }
  }

  lemma {:induction false} ReplyPayloadsAppend(s: Server, ps: seq<seq<byte>>, qs: seq<seq<byte>>)
    ensures ReplyPayloads(s, ps + qs) == ReplyPayloads(s, ps) + ReplyPayloads(s, qs)
    decreases |qs|
  {
    if qs == [] {
      assert ps + qs == ps;
    } else {
      var k := |qs| - 1;
      assert (ps + qs)[..|ps + qs| - 1] == ps + qs[..k];
      ReplyPayloadsAppend(s, ps, qs[..k]);
    }
  }

  /** One more payload of a list whose replies all fit a frame: its reply
      fits a frame, and its frame follows the frames of the replies so far. */
  lemma ReplyStep(s: Server, ps: seq<seq<byte>>, i: nat)
    requires Framable(ReplyPayloads(s, ps)) && i < |ps|
    ensures Framable(ReplyPayloads(s, ps[..i]))
    ensures |Reply(s, ps[i])| < TWO_32
    ensures Framable(ReplyPayloads(s, ps[..i + 1]))
    ensures EncodeFrames(ReplyPayloads(s, ps[..i + 1])) == EncodeFrames(ReplyPayloads(s, ps[..i])) + EncodeFrame(Reply(s, ps[i]))
  {
    FramablePrefix(s, ps, i);
    ReplyPayloadsAt(s, ps, i);
    assert ps[..i + 1][..i] == ps[..i];
    var r := Reply(s, ps[i]);
    EncodeFramesAppend(ReplyPayloads(s, ps[..i]), [r]);
    assert EncodeFrames([r]) == EncodeFrame(r);
  }

  lemma FramablePrefix(s: Server, ps: seq<seq<byte>>, k: nat)
    requires Framable(ReplyPayloads(s, ps)) && k <= |ps|
    ensures Framable(ReplyPayloads(s, ps[..k]))
  {
    assert ps == ps[..k] + ps[k..];
    ReplyPayloadsAppend(s, ps[..k], ps[k..]);
    FramableSplit(ReplyPayloads(s, ps[..k]), ReplyPayloads(s, ps[k..]));
  }

  /** `handler(client)`: one connection's frame buffer and the bytes
      written back on it. */
  class Connection {
    const server: Server
    const frameBuffer: FrameBuffer
    /** Bytes handed to `client.write`, in order. */
    var written: seq<byte>

    /** Exactly one response frame has been written per request frame the
        frame buffer delivered, in the same order. (The frame buffer's own
        invariant is `frameBuffer.Valid()`.) */
    ghost predicate Valid()
      reads this, frameBuffer
    {
      && Framable(ReplyPayloads(server, frameBuffer.delivered))
      && written == EncodeFrames(ReplyPayloads(server, frameBuffer.delivered))
    }

    constructor (server: Server)
      ensures Valid() && frameBuffer.Valid() && fresh(frameBuffer)
      ensures this.server == server && written == [] && frameBuffer.delivered == []
      ensures frameBuffer.State() == Initial
    {
      this.server := server;
      frameBuffer := new FrameBuffer();
      written := [];
      assert ReplyPayloads(server, []) == [];
    }

    /** `onFrame(payload)`: parse the request, render it and respond. The
        answer must fit a frame (`writeUInt32BE` throws otherwise). */
    method OnFrame(payload: seq<byte>)
      requires |Reply(server, payload)| < TWO_32
      modifies this`written
      ensures written == old(written) + EncodeFrame(Reply(server, payload))
    {
      var request := server.codec.decodeRequest(payload);
      var (err, rendered) := Render(server.render, request.conn, request.data);
      var obj := Complete(server.handleError, request.id, err, rendered);
      written := written + Respond(server.codec, obj);
      assert obj == Answer(server, request);
    }

    /** The scheduled `onFrame` calls running, one per payload, in order. */
    method RunScheduled(payloads: seq<seq<byte>>)
      requires Framable(ReplyPayloads(server, payloads))
      modifies this`written
      ensures written == old(written) + EncodeFrames(ReplyPayloads(server, payloads))
      decreases |payloads|
    {
      if payloads != [] {
        var k := |payloads| - 1;
        FramablePrefix(server, payloads, k);
        RunScheduled(payloads[..k]);
        ReplyStep(server, payloads, k);
        OnFrame(payloads[k]);
        assert payloads[..k + 1] == payloads;
      }
    }

    /** A `data` event on this connection: the chunk goes through this
        connection's frame buffer, and every request it completes is
        answered, in order. */
    method OnData(chunk: seq<byte>)
      requires Valid() && frameBuffer.Valid()
      requires Framable(ReplyPayloads(server, AfterFeed(frameBuffer.State(), chunk).out))
      modifies this, frameBuffer
      ensures Valid() && frameBuffer.Valid()
      ensures frameBuffer.State() == AfterFeed(old(frameBuffer.State()), chunk).state
      ensures frameBuffer.delivered == old(frameBuffer.delivered) + AfterFeed(old(frameBuffer.State()), chunk).out
      ensures frameBuffer.fed == old(frameBuffer.fed) + chunk
      ensures written == old(written) + EncodeFrames(ReplyPayloads(server, AfterFeed(old(frameBuffer.State()), chunk).out))
    {
      var start := |frameBuffer.delivered|;
      frameBuffer.Feed(chunk);
      var incoming := frameBuffer.delivered[start..];
      assert frameBuffer.delivered == old(frameBuffer.delivered) + incoming;
      RunScheduled(incoming);
      ReplyPayloadsAppend(server, old(frameBuffer.delivered), incoming);
      EncodeFramesAppend(ReplyPayloads(server, old(frameBuffer.delivered)), ReplyPayloads(server, incoming));
    }
  }

  /** Two connections accepted by the same server, with a chunk arriving on
      the second between two chunks on the first: each connection answers
      exactly the requests in its own bytes. */
  method TwoConnections(server: Server, a1: seq<byte>, b: seq<byte>, a2: seq<byte>)
    returns (first: seq<byte>, second: seq<byte>)
    requires Framable(ReplyPayloads(server, AfterFeed(Initial, a1).out + AfterFeed(AfterFeed(Initial, a1).state, a2).out))
    requires Framable(ReplyPayloads(server, AfterFeed(Initial, b).out))
    ensures first == EncodeFrames(ReplyPayloads(server, AfterFeed(Initial, a1).out + AfterFeed(AfterFeed(Initial, a1).state, a2).out))
    ensures second == EncodeFrames(ReplyPayloads(server, AfterFeed(Initial, b).out))
  {
    var c1 := new Connection(server);
    var c2 := new Connection(server);
    assert c1.frameBuffer != c2.frameBuffer;
    ghost var step1 := AfterFeed(Initial, a1);
    ghost var step2 := AfterFeed(step1.state, a2);
    ReplyPayloadsAppend(server, step1.out, step2.out);
    FramableSplit(ReplyPayloads(server, step1.out), ReplyPayloads(server, step2.out));
    c1.OnData(a1);
    assert c1.written == EncodeFrames(ReplyPayloads(server, step1.out));
    assert c1.frameBuffer.State() == step1.state;
    c2.OnData(b);
    second := c2.written;
    c1.OnData(a2);
    first := c1.written;
    assert first == EncodeFrames(ReplyPayloads(server, step1.out)) + EncodeFrames(ReplyPayloads(server, step2.out));
    EncodeFramesAppend(ReplyPayloads(server, step1.out), ReplyPayloads(server, step2.out));
  }
}

=== FILE: values.dfy ===
/** The JavaScript values that travel through requests and responses: the
    request's `conn` and `data`, a handler's result, a thrown or reported
    failure, and error objects. Only what the RPC core looks at is modelled:
    truthiness (`if (err)`, `m[0] || default`) and the string conversion used
    by template literals and `toString()`. */
module Values {

  datatype Value =
    | Undefined
    | Null
    | Bool(b: bool)
    | Num(n: int)
    | Str(s: string)
    | Arr(items: seq<Value>)
    | Obj(fields: seq<(string, Value)>)
      /** An object built on `Error.prototype`: its own `name` and `message`. */
    | Err(name: string, message: Value)

  /** JavaScript truthiness: `undefined`, `null`, `false`, `0` and `""` are falsy. */
  predicate Truthy(v: Value)
  {
    match v
    case Undefined => false
    case Null => false
    case Bool(b) => b
    case Num(n) => n != 0
    case Str(s) => s != ""
    case _ => true
  }

  /** The falsy values are exactly the five listed above. */
  lemma FalsyValues(v: Value)
    ensures !Truthy(v) <==> v == Undefined || v == Null || v == Bool(false) || v == Num(0) || v == Str("")
  {
  }

  /** Decimal digits of a natural number. */
  function DigitsOf(n: nat): (r: string)
    ensures |r| > 0
    ensures forall i :: 0 <= i < |r| ==> '0' <= r[i] <= '9'
  {
    var d := ['0', '1', '2', '3', '4', '5', '6', '7', '8', '9'][n % 10];
    if n < 10 then [d] else DigitsOf(n / 10) + [d]
  }

  /** Comma-joined, as `Array.prototype.join` does by default. */
  function Join(parts: seq<string>): string
  {
    if parts == [] then ""
    else if |parts| == 1 then parts[0]
    else Join(parts[..|parts| - 1]) + "," + parts[|parts| - 1]
  }

  /** `String(v)`, which is also what a template literal inserts and, for
      every value except `undefined` and `null`, what `v.toString()` returns.
      Array elements that are `undefined` or `null` join as the empty string;
      an error shows as `name: message`, or one of the two when the other is
      empty (Error.prototype.toString). */
  function Show(v: Value): string
  {
    match v
    case Undefined => "undefined"
    case Null => "null"
    case Bool(b) => if b then "true" else "false"
    case Num(n) => if n < 0 then "-" + DigitsOf(-n) else DigitsOf(n)
    case Str(s) => s
    case Arr(items) =>
      Join(seq(|items|, i requires 0 <= i < |items| =>
        if items[i].Undefined? || items[i].Null? then "" else Show(items[i])))
    case Obj(_) => "[object Object]"
    case Err(name, message) =>
      var m := if message.Undefined? then "" else Show(message);
      if name == "" then m else if m == "" then name else name + ": " + m
  }

  /** A string converts to itself: a template literal inserts it unchanged. */
  lemma ShowText(s: string)
    ensures Show(Str(s)) == s
  {
  }
}

=== FILE: wire.dfy ===
/** The wire format shared by both directions of a connection: a frame is a
    4-byte unsigned big-endian length N followed by exactly N payload bytes
    (`length.writeUInt32BE(payload.length)` followed by the payload, and
    `buffer.readUInt32BE()` on the reading side). `Parse` is a whole-stream
    reference decoder against which the incremental FrameBuffer is proved. */
module Wire {

  type byte = b: int | 0 <= b < 256

  /** 2^32: the first length `writeUInt32BE` refuses. */
  const TWO_32: nat := 0x1_0000_0000

  /** `readUInt32BE()` at offset 0: the first four bytes, most significant first. */
  function DecodeBE32(b: seq<byte>): (n: nat)
    requires |b| >= 4
    ensures n < TWO_32
  {
    var b0: int := b[0];
    ((b0 * 256 + b[1]) * 256 + b[2]) * 256 + b[3]
  }

  /** `writeUInt32BE(n)` into a fresh 4-byte buffer. */
  function EncodeBE32(n: nat): (b: seq<byte>)
    requires n < TWO_32
    ensures |b| == 4
  {
    var m1 := n / 256;
    var m2 := m1 / 256;
    [m2 / 256, m2 % 256, m1 % 256, n % 256]
  }

  lemma {:induction false} DecodeEncodeBE32(n: nat)
    requires n < TWO_32
    ensures DecodeBE32(EncodeBE32(n)) == n
  {
    var m1 := n / 256;
    var m2 := m1 / 256;
    assert m2 == m2 / 256 * 256 + m2 % 256;
    assert m1 == m2 * 256 + m1 % 256;
    assert n == m1 * 256 + n % 256;
  }

  lemma {:induction false} EncodeDecodeBE32(b: seq<byte>)
    requires |b| >= 4
    ensures EncodeBE32(DecodeBE32(b)) == b[..4]
  {
    var n := DecodeBE32(b);
    var m1: int := (b[0] as int * 256 + b[1]) * 256 + b[2];
    var m2: int := b[0] as int * 256 + b[1];
    assert n / 256 == m1 && n % 256 == b[3];
    assert m1 / 256 == m2 && m1 % 256 == b[2];
    assert m2 / 256 == b[0] && m2 % 256 == b[1];
  }

  /** A length prefix followed by the payload. The prefix reads back as the
      payload's length and the payload follows it unchanged. */
  function EncodeFrame(p: seq<byte>): (f: seq<byte>)
    requires |p| < TWO_32
    ensures |f| == 4 + |p|
    ensures DecodeBE32(f) == |p| && f[4..] == p
  {
    DecodeEncodeBE32(|p|);
    EncodeBE32(|p|) + p
  }

  /** Every payload fits a 32-bit length prefix. */
  predicate Framable(ps: seq<seq<byte>>)
  {
    forall i :: 0 <= i < |ps| ==> |ps[i]| < TWO_32
  }

  /** Every payload is non-empty. */
  predicate AllNonEmpty(ps: seq<seq<byte>>)
  {
    forall i :: 0 <= i < |ps| ==> |ps[i]| > 0
  }

  /** The frames of `ps`, concatenated in order. */
  function EncodeFrames(ps: seq<seq<byte>>): seq<byte>
    requires Framable(ps)
  {
    if ps == [] then [] else EncodeFrame(ps[0]) + EncodeFrames(ps[1..])
  }

  lemma {:induction false} EncodeFramesAppend(ps: seq<seq<byte>>, qs: seq<seq<byte>>)
    requires Framable(ps) && Framable(qs)
    ensures Framable(ps + qs)
    ensures EncodeFrames(ps + qs) == EncodeFrames(ps) + EncodeFrames(qs)
  {
    if ps != [] {
      assert (ps + qs)[1..] == ps[1..] + qs;
      EncodeFramesAppend(ps[1..], qs);
    } else {
      assert ps + qs == qs;
    }
  }

  /** A list of payloads that fit frames splits into two that do. */
  lemma FramableSplit(ps: seq<seq<byte>>, qs: seq<seq<byte>>)
    requires Framable(ps + qs)
    ensures Framable(ps) && Framable(qs)
  {
    forall i | 0 <= i < |ps|
      ensures |ps[i]| < TWO_32
    {
      assert ps[i] == (ps + qs)[i];
    }
    forall i | 0 <= i < |qs|
      ensures |qs[i]| < TWO_32
    {
      assert qs[i] == (ps + qs)[|ps| + i];
    }
  }

  /** Concatenation of the chunks a stream arrives in. */
  function Flatten(chunks: seq<seq<byte>>): seq<byte>
  {
    if chunks == [] then [] else chunks[0] + Flatten(chunks[1..])
  }

  /** Complete payloads decoded from a stream, and the bytes left over. */
  datatype Parsed = Parsed(payloads: seq<seq<byte>>, rest: seq<byte>)

  /** The left-over bytes do not hold a whole frame. */
  predicate Incomplete(t: seq<byte>)
  {
    |t| < 4 || |t| - 4 < DecodeBE32(t)
  }

  /** Reference decoder: split a whole stream greedily into complete frames,
      each payload as long as the prefix before it announces. */
  function Parse(s: seq<byte>): (r: Parsed)
    decreases |s|
  {
    if |s| < 4 then Parsed([], s)
    else
      var n := DecodeBE32(s);
      if |s| - 4 < n then Parsed([], s)
      else
        var tail := Parse(s[4 + n..]);
        Parsed([s[4..4 + n]] + tail.payloads, tail.rest)
  }

  /** Nothing is lost or invented: the stream is exactly the frames of the
      parsed payloads followed by the left-over bytes. */
  lemma {:induction false} ParseReassembles(s: seq<byte>)
    ensures Framable(Parse(s).payloads)
    ensures EncodeFrames(Parse(s).payloads) + Parse(s).rest == s
    decreases |s|
  {
    if |s| >= 4 && |s| - 4 >= DecodeBE32(s) {
      var n := DecodeBE32(s);
      var tail := s[4 + n..];
      var p := s[4..4 + n];
      var ps, rest := Parse(tail).payloads, Parse(tail).rest;
      assert Parse(s) == Parsed([p] + ps, rest) by {
        ParseComplete(s);
      }
      ParseReassembles(tail);
      assert Framable([p] + ps) && EncodeFrames([p] + ps) == EncodeFrame(p) + EncodeFrames(ps) by {
        EncodeFramesCons(p, ps);
      }
      assert EncodeFrame(p) == s[..4 + n] by {
        EncodeDecodeBE32(s);
      }
      Reassemble(s, 4 + n, EncodeFrames(ps), rest);
    } else {
      assert Parse(s) == Parsed([], s);
      assert EncodeFrames([]) == [];
    }
  }

  /** Sequence bookkeeping for ParseReassembles. */
  lemma Reassemble(s: seq<byte>, k: nat, frames: seq<byte>, rest: seq<byte>)
    requires k <= |s| && s[k..] == frames + rest
    ensures s[..k] + frames + rest == s
  {
    assert s == s[..k] + s[k..];
  }

  /** One unfolding of `Parse` on a stream that starts with a whole frame. */
  lemma ParseComplete(s: seq<byte>)
    requires |s| >= 4 && |s| - 4 >= DecodeBE32(s)
    ensures Parse(s) == Parsed([s[4..4 + DecodeBE32(s)]] + Parse(s[4 + DecodeBE32(s)..]).payloads,
                               Parse(s[4 + DecodeBE32(s)..]).rest)
  {
  }

  lemma EncodeFramesCons(p: seq<byte>, ps: seq<seq<byte>>)
    requires |p| < TWO_32 && Framable(ps)
    ensures Framable([p] + ps)
    ensures EncodeFrames([p] + ps) == EncodeFrame(p) + EncodeFrames(ps)
  {
    assert ([p] + ps)[1..] == ps;
  }

  /** The left-over bytes of a parse never hold a whole frame. */
  lemma {:induction false} ParseRestIncomplete(s: seq<byte>)
    ensures Incomplete(Parse(s).rest)
    decreases |s|
  {
    if |s| >= 4 && |s| - 4 >= DecodeBE32(s) {
      ParseRestIncomplete(s[4 + DecodeBE32(s)..]);
    }
  }

  /** Parsing is insensitive to where a stream is cut: parsing `s + t` gives
      the payloads of `s`, then those of its left-over bytes followed by `t`. */
  lemma {:induction false} ParseAppend(s: seq<byte>, t: seq<byte>)
    ensures Parse(s + t).payloads == Parse(s).payloads + Parse(Parse(s).rest + t).payloads
    ensures Parse(s + t).rest == Parse(Parse(s).rest + t).rest
    decreases |s|
  {
    if |s| >= 4 {
      var n := DecodeBE32(s);
      DecodeBE32Append(s, t);
      if |s| - 4 >= n {
        var tail := s[4 + n..];
        assert (s + t)[4 + n..] == tail + t;
        assert (s + t)[4..4 + n] == s[4..4 + n];
        assert Parse(s) == Parsed([s[4..4 + n]] + Parse(tail).payloads, Parse(tail).rest);
        assert Parse(s + t) == Parsed([s[4..4 + n]] + Parse(tail + t).payloads, Parse(tail + t).rest);
        ParseAppend(tail, t);
      }
    }
  }

  /** Bytes after the first four do not change the length prefix. */
  lemma DecodeBE32Append(s: seq<byte>, t: seq<byte>)
    requires |s| >= 4
    ensures DecodeBE32(s + t) == DecodeBE32(s)
  {
    assert (s + t)[..4] == s[..4];
  }

  /** The frames of `ps` parse back to exactly `ps` with nothing left over. */
  lemma {:induction false} ParseEncodeFrames(ps: seq<seq<byte>>)
    requires Framable(ps)
    ensures Parse(EncodeFrames(ps)) == Parsed(ps, [])
  {
    if ps != [] {
      var f := EncodeFrame(ps[0]);
      var s := EncodeFrames(ps);
      assert s == f + EncodeFrames(ps[1..]);
      assert s[..4] == f[..4];
      assert s[4..4 + |ps[0]|] == ps[0];
      assert s[4 + |ps[0]|..] == EncodeFrames(ps[1..]);
      ParseEncodeFrames(ps[1..]);
    }
  }

  /** Every length prefix the decoder can read from `s`, including that of a
      trailing incomplete frame, is non-zero. */
  predicate PositiveLengths(s: seq<byte>)
    decreases |s|
  {
    |s| < 4 ||
    (DecodeBE32(s) > 0 && (|s| - 4 < DecodeBE32(s) || PositiveLengths(s[4 + DecodeBE32(s)..])))
  }

  /** Frames of non-empty payloads only ever carry positive prefixes. */
  lemma {:induction false} EncodeFramesPositive(ps: seq<seq<byte>>)
    requires Framable(ps) && AllNonEmpty(ps)
    ensures PositiveLengths(EncodeFrames(ps))
  {
    if ps != [] {
      var s := EncodeFrames(ps);
      assert s[..4] == EncodeFrame(ps[0])[..4];
      assert s[4 + |ps[0]|..] == EncodeFrames(ps[1..]);
      EncodeFramesPositive(ps[1..]);
    }
  }

  lemma {:induction false} PositiveLengthsPrefix(s: seq<byte>, t: seq<byte>)
    requires PositiveLengths(s + t)
    ensures PositiveLengths(s)
    decreases |s|
  {
    if |s| >= 4 {
      var n := DecodeBE32(s);
      assert (s + t)[..4] == s[..4];
      if |s| - 4 >= n {
        assert (s + t)[4 + n..] == s[4 + n..] + t;
        PositiveLengthsPrefix(s[4 + n..], t);
      }
    }
  }

  lemma {:induction false} PositiveLengthsRest(s: seq<byte>, t: seq<byte>)
    requires PositiveLengths(s + t)
    ensures PositiveLengths(Parse(s).rest + t)
    decreases |s|
  {
    if |s| >= 4 {
      var n := DecodeBE32(s);
      assert (s + t)[..4] == s[..4];
      if |s| - 4 >= n {
        assert (s + t)[4 + n..] == s[4 + n..] + t;
        PositiveLengthsRest(s[4 + n..], t);
      }
    }
  }
}
